=== FILE: README.md ===
# softuart in Dafny

This is a model of `softuart.c`, a Linux kernel driver for the Raspberry Pi.
The driver implements an 8N1 serial port by bit-banging two GPIO pins from two
high-resolution timers:

- **Transmit.** The TX timer callback (`FunctionTimerTX`) drives the TX pin. It
  sends one level per tick: the start bit, the eight data bits least
  significant first, then the stop bit. The byte it sends is always the last
  one in `TX_BUFFER`. It removes that byte on the stop tick.
- **Receive.** The RX timer callback (`FunctionTimerRX`) samples the RX pin
  on each tick; the model takes one sample per tick (see Left out). It waits for a low start bit and then shifts eight samples
  into `RX_DATA`. On the stop tick it appends the result to `RX_BUFFER`.
- **Control.** Userspace controls the driver through sysfs attributes:
  - `gpio_tx`, `gpio_rx`, `loopback` and `baudrate` are written with a range
    check;
  - writing `data` queues text for sending, or injects it into the receive
    buffer in loopback mode;
  - reading `data` drains the receive buffer.

Both buffers are NUL-terminated `unsigned char` arrays of 257 bytes whose length is
`strlen`. A store goes at index `strlen`. When the length reaches 257, the
buffer is wiped with `memset`.

## Modules

- `Buffer` (`buffer.dfy`): a buffer as the sequence of its non-zero bytes,
  with the store rule `Put`.
  - A reference model of the C array proves `Put` agrees with the driver's
    `buf[strlen(buf)] = c; if (strlen(buf) == 257) memset(...)`. It uses
    `Strlen`, `StoreAtEnd` and `DropLast`.
  - The proof assumes the intended `strlen` (see Left out).
- `Framing` (`framing.dfy`): the 8N1 frame. It has the transmitter's bit
  extraction `BitOf`, the receiver's packing `Pack` and their inverse lemmas.
  `Value` is an arithmetic reference for `Pack`: the sum of `d[i] * 2^i`.
- `Transmit` (`transmit.dfy`) and `Receive` (`receive.dfy`): the two tick
  functions. Each keeps its `static int bit` counter as a field of its state.
  Each has lemmas over runs of ticks: whole frames, whole buffers, idle lines.
- `Gpio` (`gpio.dfy`): the three register helpers as pure functions on 32-bit
  words:
  - `GPIOFunction` updates a GPFSEL field;
  - `GPIOOutputValueSet` chooses the GPSET/GPCLR store;
  - `GPIOInputValueGet` extracts a GPLEV bit.

  `ApplyWrite` gives the effect of a GPSET/GPCLR store on the pin levels. It
  follows section 6.1 of the BCM2835 ARM Peripherals manual.
- `SoftUart` (`softuart.dfy`): the whole driver.
  - It holds the configuration, the GPFSEL words and both engines.
  - Each timer tick and each sysfs callback is one atomic step.
  - It proves the system properties: the loopback and serial round trips,
    submit order, collect-twice, setter validation and an invariant kept by
    any interleaving of steps.

## Behaviour worth knowing

- **Outbox order.** Each write is appended to the outbox reversed, and the
  transmitter sends from the end. So the bytes of one write go out in order
  (`SubmitThenSend`). Across writes that are still queued, the outbox is
  last-in-first-out: the newer write goes out first (`TwoWritesSendLastFirst`).
- **The byte being sent is not latched.** The transmitter re-reads the last
  byte of the outbox on every tick. A byte stored during a frame therefore
  supplies the remaining data bits of that frame (`Transmit.StoreDuringFrame`),
  and the stop tick pops it. The byte that was in flight stays queued and
  goes out next, in full (`Transmit.StoredByteDropped`).
  - Stored after at least one data bit has gone out, the new byte never goes
    out in a frame of its own. The in-flight byte goes out twice when the
    store falls just before the stop tick: its eight data bits were already
    on the line.
  - Stored right after the start tick, the new byte supplies all eight data
    bits, so its whole frame goes out, ahead of the in-flight byte, which has
    not been sent at all (`Transmit.StoreAfterStart`).
- **Overflow.** When a store would make a buffer 257 bytes long, the whole
  buffer is wiped (`Buffer.Put`, `Buffer.OverflowWipes`, `LoopbackOverflow`).
- **Overflow during a frame.** Wiping the outbox does not reset the transmit
  counter. If a data bit was next, the first byte of the next write is sent
  from that data bit onwards, with no start bit (`OutboxOverflowMidFrame`).
  If the stop tick was next, that tick drives the stop level and pops the
  first byte of the next write, which is never sent (`OutboxOverflowAtStop`).
- **Zero bytes.** A buffer cannot hold a zero byte. Storing one changes
  nothing (`Buffer.Put`, `Buffer.PutAllZeros`), so a zero byte sent over the
  line is lost on reception.

## Model

| member | source | states |
|---|---|---|
| `Buffer.Put` | softuart.c:153-158 | a store keeps the buffer non-zero and at most 256 long; a zero byte changes nothing; otherwise the byte is appended, or the buffer is wiped if it held 256 |
| `Buffer.StoreAtEndRefines` | softuart.c:224-226 | on a well-formed 257-byte C array, `buf[strlen(buf)] = c` plus the memset rule is exactly `Put` on the contents |
| `Buffer.DropLastRefines` | softuart.c:122 | clearing byte `strlen - 1` removes exactly the last byte of the contents and keeps the array well-formed |
| `Buffer.PutAllFits` | softuart.c:219-233 | storing non-zero bytes that fit appends them in order |
| `Buffer.OverflowWipes` | softuart.c:231-232 | storing one byte more than fits wipes everything stored before |
| `Buffer.PutAllZeros` | softuart.c:224 | zero bytes stored into a buffer change nothing |
| `Framing.BitOf` | softuart.c:116 | the transmitter's `(b & (1 << i)) >> i` is bit `i` of `b` |
| `Framing.Frame` | softuart.c:110-124 | a frame is ten levels: low start bit, the data bits LSB first, high stop bit |
| `Framing.PackDataBits` | softuart.c:139-148 | packing the data bits of a byte gives the byte back |
| `Framing.DataBitsPack` | softuart.c:139-148 | the data bits of a packed byte are the levels packed |
| `Framing.PackValue` | softuart.c:139-148 | the packed byte equals the sum of `d[i] * 2^i` |
| `Framing.FramesConcat` | softuart.c:110-124 | the frames of a concatenation are the frames of each part back to back |
| `Transmit.Tick` | softuart.c:106-130 | counter stays in [-1, 8]; an empty outbox means no write and no change; a start tick drives low and moves to data bit 0; a data tick drives the current last byte's bit; only the stop tick changes the outbox, removing its last byte |
| `Transmit.SendFrame` | softuart.c:110-124 | ten ticks from rest drive the frame of the last byte and remove exactly that byte; the nine earlier ticks leave the outbox alone |
| `Transmit.SendAll` | softuart.c:110-124 | from rest, `10 * n` ticks drain an `n`-byte outbox, sending it from last byte to first |
| `Transmit.FinishFrame` | softuart.c:114-123 | from any data or stop tick, the ticks up to the stop tick pop the byte that is last at that moment and return to rest |
| `Transmit.StoredByteDropped` | softuart.c:116-122 | a byte stored mid-frame is popped by that frame's stop tick, leaving the outbox as it was before the store |
| `Transmit.StoreAfterStart` | softuart.c:112-123 | a byte stored right after the start tick goes out as a whole frame, and the in-flight byte stays queued unsent |
| `Transmit.Silent` | softuart.c:110 | with an empty outbox every tick writes nothing and the counter does not move |
| `Transmit.StoreDuringFrame` | softuart.c:116 | a non-zero byte the driver stores mid-frame (`Put`, no overflow) supplies the next data bit sent; when the two bytes differ in that bit, the new byte's bit is driven instead of the old one's |
| `Receive.Tick` | softuart.c:133-164 | counter stays in [-1, 8]; idle with a high line nothing changes; idle with a low line the counter moves to data bit 0; the inbox changes only on the stop tick, which stores `RX_DATA` with `Put` and returns to rest |
| `Receive.ShiftInEight` | softuart.c:141-150 | eight "set or clear bit 7, shift right unless last" steps pack the samples, whatever `RX_DATA` held |
| `Receive.DataPhase` | softuart.c:139-153 | eight data ticks leave `RX_DATA` equal to the packed samples and the counter at the stop tick |
| `Receive.DecodedValue` | softuart.c:139-153 | after eight data ticks `RX_DATA` is the sum of `d[i] * 2^i` |
| `Receive.ReceiveFrame` | softuart.c:137-158 | start, eight data samples and a stop sample of either level store the packed byte and return to rest |
| `Receive.ReceiveByte` | softuart.c:137-158 | the frame of `b` received from rest stores `b` |
| `Receive.ReceiveAll` | softuart.c:137-158 | back-to-back frames store their bytes in order, as `PutAll` does |
| `Receive.IdleLine` | softuart.c:137-138 | at rest a line held high changes nothing |
| `Gpio.FieldShiftValue` | softuart.c:84 | pin `g`'s field shift is `(g % 10) * 3` |
| `Gpio.BitIndexValue` | softuart.c:91 | pin `g`'s bit index is `g % 32` |
| `Gpio.SetFieldSets` | softuart.c:84 | the merged word holds `mode & 7` in the chosen field |
| `Gpio.SetFieldKeeps` | softuart.c:84 | the merged word keeps every other field |
| `Gpio.SetFieldKeepsRest` | softuart.c:84 | the merged word keeps every bit outside the written field |
| `Gpio.SetFieldKeepsTop` | softuart.c:84 | the merged word keeps bits 30 and 31 |
| `Gpio.GpioFunction` | softuart.c:82-85 | pin `g`'s function becomes `mode & 7`; every other pin's function, the top bits of each word and every other word are unchanged |
| `Gpio.GpioFunctionKeepsRest` | softuart.c:84 | in the written GPFSEL word every bit outside pin `g`'s field is unchanged, including the fields of GPFSEL5 that belong to no pin |
| `Gpio.OutputValueSet` | softuart.c:88-94 | one store to GPSET (high) or GPCLR (low) of word `g / 32`, with exactly the bit of pin `g` set |
| `Gpio.InputValueGet` | softuart.c:97-103 | both branches read bit `g % 32` of GPLEV word `g / 32` |
| `Gpio.SetBitReads` | softuart.c:90-93 | after a GPSET/GPCLR store the bit reads the driven level |
| `Gpio.SetBitKeeps` | softuart.c:90-93 | a GPSET/GPCLR store leaves the other bits of the word alone |
| `Gpio.WriteThenRead` | softuart.c:88-103 | a pin driven with `GPIOOutputValueSet` reads back the driven level with `GPIOInputValueGet`, and every other pin keeps its level |
| `SoftUart.Init` | softuart.c:312-314 | default configuration; TX pin made an output, RX pin an input, other pins untouched; empty buffers and engines at rest |
| `SoftUart.BitPeriodMicros` | softuart.c:127 | the period is the largest whole number of microseconds not above the bit time: `p * baud <= 1000000 < (p + 1) * baud` |
| `SoftUart.BitPeriodRange` | softuart.c:283-286 | every accepted baud rate gives a period in 52..833 microseconds |
| `SoftUart.TxTick` | softuart.c:106-130 | only the TX engine changes; a pin is written exactly when the outbox is non-empty, and that store is `GPIOOutputValueSet(GPIO_TX, level)` with the level the engine drives |
| `SoftUart.TxTickDrivesPin` | softuart.c:113-121 | when the TX pin is an output, after a TX tick's store it reads the level the engine drove, and no other pin changes |
| `SoftUart.RxTick` | softuart.c:133-164 | only the RX engine changes, stepping on bit `rxPin % 32` of GPLEV word `rxPin / 32` |
| `SoftUart.SetTxPin` | softuart.c:167-183 | accepted exactly for 0..53; on refusal nothing changes; otherwise the old TX pin becomes an input, the new one an output, and no other pin, GPFSEL word or state changes |
| `SoftUart.SetRxPin` | softuart.c:186-200 | accepted exactly for 0..53; on refusal nothing changes; otherwise the new pin becomes an input, and no other pin, GPFSEL word or state changes |
| `SoftUart.SetLoopback` | softuart.c:254-267 | accepted exactly for 0 and 1; on refusal nothing changes; otherwise only the flag changes |
| `SoftUart.SetBaudrate` | softuart.c:276-289 | accepted exactly for 1200..19200; on refusal nothing changes; otherwise only the rate changes, and its period lies in 52..833 |
| `SoftUart.SetterBoundaries` | softuart.c:174-176 | 1199, 19201, 54, -1 and 2 are refused without effect; 1200, 19200, 0 and 53 are accepted |
| `SoftUart.Submit` | softuart.c:219-233 | a data write keeps the invariant and touches only the buffer the loopback flag selects |
| `SoftUart.SetData` | softuart.c:215-240 | the driver's loop, including the terminator store, has exactly the effect of `Submit` |
| `SoftUart.GetData` | softuart.c:243-251 | a read returns the inbox contents and leaves the inbox empty, everything else unchanged |
| `SoftUart.CollectTwice` | softuart.c:247-248 | a second read straight after a read returns nothing |
| `SoftUart.LoopbackRoundTrip` | softuart.c:222-227 | in loopback mode, text that fits in an empty inbox is read back unchanged |
| `SoftUart.LoopbackFits` | softuart.c:222-227 | without overflow, a loopback write appends the text in order to the inbox, whatever it held |
| `SoftUart.LoopbackOverflow` | softuart.c:224-226 | in loopback mode, a write one byte over capacity wipes the inbox |
| `SoftUart.SubmitFits` | softuart.c:228-233 | without overflow, a non-loopback write appends the reversed text to the outbox |
| `SoftUart.OutboxOverflowMidFrame` | softuart.c:108-233 | an outbox overflow with a data bit next wipes the outbox but keeps the counter, so the next write's first byte starts at that data bit with no start bit |
| `SoftUart.OutboxOverflowAtStop` | softuart.c:108-233 | an outbox overflow with the stop tick next: that tick drives the stop level and pops the next write's first byte unsent |
| `SoftUart.SubmitThenSend` | softuart.c:228-233 | text written to an idle, empty transmitter goes out in its original order, one frame per byte |
| `SoftUart.TwoWritesSendLastFirst` | softuart.c:230 | of two writes queued together, the second goes out first, each in its own order |
| `SoftUart.LineRoundTrip` | softuart.c:106-164 | an idle receiver sampling the transmitter's line tick for tick stores the outbox in the order it is sent |
| `SoftUart.SerialRoundTrip` | softuart.c:215-251 | text written to one driver and sent over the wire to another is read back unchanged from the second |
| `SoftUart.FrameOfA` | softuart.c:110-127 | 'A' (0x41) is sent as low, 1,0,0,0,0,0,1,0, high; at 9600 baud the period is 104 microseconds |
| `SoftUart.Step` | softuart.c:106-289 | every tick and every attribute access keeps the invariant |
| `SoftUart.StepsKeepValid` | softuart.c:108-158 | under any interleaving of steps the frame counters stay in [-1, 8] and both buffers hold at most 256 non-zero bytes |

## Left out

- Memory-mapped register access is left out: `IO_ADDRESS`, `__io_address` and
  the register overlay (softuart.c:34-41, 70-79, 312). GPFSEL is a field of
  the state. GPLEV is a parameter of the RX tick. A GPSET/GPCLR store is the
  TX tick's output.
- hrtimer scheduling is left out: arming, re-arming and cancelling the timers
  (softuart.c:127, 161, 237, 319-324, 345-346). A tick is one atomic step.
  The kick `hrtimer_start` in `set_data_callback` has no effect on the model.
  Only the tick period is modelled (`BitPeriodMicros`). Clock drift and jitter
  are not modelled: `LineRoundTrip` assumes the receiver samples once per
  transmitter tick.
- sysfs plumbing is left out: `DEVICE_ATTR`, the `sprintf` getters, module
  init/exit and module parameters (softuart.c:203-212, 270-273, 292-360).
  `Init` models only the two `GPIOFunction` calls of module init and uses the
  default parameters.
- The `kstrtol` parse is left out. Every setter takes the already-parsed
  integer, so the branch that refuses unparsable text is not modelled.
- Concurrency is modelled only as interleaving. The driver takes no locks. Ticks
  and attribute accesses are interleaved atomic steps (`Step`); a callback
  preempted halfway is not modelled.
- `strlen` past the array is not modelled as written. It is C undefined
  behaviour when a buffer holds 257 non-zero bytes (softuart.c:157, 225,
  231). The model uses the evident intent, "length reaches 257, then clear".
  Likewise the text written to `data` is taken to end at its first zero byte
  or at its end (`CharAt`).
- The RX data tick reads the pin twice (softuart.c:137 and 141). The model
  reads both from the same GPLEV snapshot.
- `TX_DATA` (softuart.c:64) is declared but never used by the driver.
- The signed overflow of `1 << 31` is not modelled. The driver computes it for
  pin 31 (softuart.c:91, 93, 102), which is C undefined behaviour. The model
  uses the intended bit 31.
- A GPSET/GPCLR store to a pin that is not an output is not modelled.
  `ApplyWrite` gives the levels of output pins only, so `TxTickDrivesPin`
  requires the TX pin to be an output. After `gpio_rx` is set to the TX pin,
  that pin is an input and the TX tick's stores have no effect on its level.
- `Init` requires nothing of the parameters beyond the defaults. With other
  module parameters the driver uses `BAUDRATE` and the pins unchecked.

=== FILE: buffer.dfy ===
/**
  The two byte buffers of the driver (the transmit outbox and the receive
  inbox). In the driver each is a character array of `Capacity + 1` bytes
  whose length is found with `strlen`, so a buffer never holds a zero byte and
  storing a zero "at the end" changes nothing. Here a buffer is the sequence of
  its non-zero bytes; the C array itself is kept as a reference model
  (`IsCArray`, `StoreAtEnd`, `DropLast`, `Cleared`) and the sequence operations
  are proved to agree with it.
 */
module Buffer {

  type byte = bv8

  /** TX_BUFFER_SIZE and RX_BUFFER_SIZE. */
  const Capacity: nat := 256

  predicate NulFree(s: seq<byte>) {
    forall i :: 0 <= i < |s| ==> s[i] != 0
  }

  /** What a buffer can hold: non-zero bytes, at most `Capacity` of them. */
  predicate Valid(s: seq<byte>) {
    NulFree(s) && |s| <= Capacity
  }

  /**
    Store one byte at the end of a buffer, then apply the overflow rule: a
    buffer whose length reaches `Capacity + 1` is wiped.
   */
  function Put(s: seq<byte>, c: byte): (r: seq<byte>)
    requires Valid(s)
    ensures Valid(r)
    ensures c == 0 ==> r == s
    ensures c != 0 && |s| < Capacity ==> r == s + [c]
    ensures c != 0 && |s| == Capacity ==> r == []
  {
    if c == 0 then s
    else if |s| + 1 == Capacity + 1 then []
    else s + [c]
  }

  /** Store a sequence of bytes one after the other with `Put`. */
  function PutAll(s: seq<byte>, bytes: seq<byte>): (r: seq<byte>)
    requires Valid(s)
    ensures Valid(r)
    decreases |bytes|
  {
    if |bytes| == 0 then s else PutAll(Put(s, bytes[0]), bytes[1..])
  }

  function Reverse(s: seq<byte>): (r: seq<byte>)
    ensures |r| == |s|
    ensures forall i :: 0 <= i < |s| ==> r[i] == s[|s| - 1 - i]
  {
    if |s| == 0 then [] else [s[|s| - 1]] + Reverse(s[..|s| - 1])
  }

  lemma ReverseReverse(s: seq<byte>)
    ensures Reverse(Reverse(s)) == s
  {
    var r := Reverse(Reverse(s));
    assert forall i :: 0 <= i < |s| ==> r[i] == s[i];
  }

  lemma ReverseNulFree(s: seq<byte>)
    requires NulFree(s)
    ensures NulFree(Reverse(s))
  {
    var r := Reverse(s);
    assert forall i :: 0 <= i < |r| ==> r[i] == s[|s| - 1 - i];
  }

  /** `PutAll` over a concatenation is `PutAll` over each part in turn. */
  lemma {:induction false} PutAllConcat(s: seq<byte>, a: seq<byte>, b: seq<byte>)
    requires Valid(s)
    ensures PutAll(s, a + b) == PutAll(PutAll(s, a), b)
    decreases |a|
  {
    if |a| == 0 {
      assert a + b == b;
    } else {
      assert (a + b)[1..] == a[1..] + b;
      PutAllConcat(Put(s, a[0]), a[1..], b);
    }
  }

  /** Without overflow and without zero bytes, `PutAll` is concatenation. */
  lemma {:induction false} PutAllFits(s: seq<byte>, bytes: seq<byte>)
    requires Valid(s) && NulFree(bytes)
    requires |s| + |bytes| <= Capacity
    ensures PutAll(s, bytes) == s + bytes
    decreases |bytes|
  {
    if |bytes| == 0 {
      assert s + bytes == s;
    } else {
      assert bytes[0] != 0;
      PutAllFits(s + [bytes[0]], bytes[1..]);
      assert s + [bytes[0]] + bytes[1..] == s + bytes;
    }
  }

  /**
    Filling a buffer one byte past `Capacity` with non-zero bytes wipes it:
    everything stored before is lost.
   */
  lemma OverflowWipes(s: seq<byte>, bytes: seq<byte>)
    requires Valid(s) && NulFree(bytes)
    requires |s| + |bytes| == Capacity + 1
    ensures PutAll(s, bytes) == []
  {
    var k := |bytes| - 1;
    assert bytes == bytes[..k] + [bytes[k]];
    PutAllConcat(s, bytes[..k], [bytes[k]]);
    PutAllFits(s, bytes[..k]);
    assert PutAll(s + bytes[..k], [bytes[k]]) == PutAll(Put(s + bytes[..k], bytes[k]), []);
  }

  /** Zero bytes are skipped by `PutAll`, whatever else is stored. */
  lemma {:induction false} PutAllZeros(s: seq<byte>, n: nat)
    requires Valid(s)
    ensures PutAll(s, seq(n, _ => 0 as byte)) == s
    decreases n
  {
    if n > 0 {
      var z := seq(n, _ => 0 as byte);
      assert z[1..] == seq(n - 1, _ => 0 as byte);
      PutAllZeros(s, n - 1);
    }
  }

  // ---------------------------------------------------------------------
  // Reference model: the C array and `strlen`.
  // ---------------------------------------------------------------------

  /**
    `strlen`: the index of the first zero byte. On an array that holds no
    zero this is the array's length, which is the length the driver's
    overflow test (`strlen(buffer) == SIZE + 1`) is evidently written for.
   */
  function Strlen(a: seq<byte>): (n: nat)
    ensures n <= |a|
    ensures forall i :: 0 <= i < n ==> a[i] != 0
    ensures n < |a| ==> a[n] == 0
  {
    if |a| == 0 || a[0] == 0 then 0 else 1 + Strlen(a[1..])
  }

  /** The buffer a C array stands for: the bytes before its first zero. */
  function Contents(a: seq<byte>): (s: seq<byte>)
    ensures NulFree(s)
  {
    a[..Strlen(a)]
  }

  /**
    A well-formed driver array: `Capacity + 1` bytes, zero from the
    terminator onwards (the driver only ever writes at `strlen` or clears).
   */
  predicate IsCArray(a: seq<byte>) {
    && |a| == Capacity + 1
    && Strlen(a) <= Capacity
    && forall i :: Strlen(a) <= i < |a| ==> a[i] == 0
  }

  /** `memset(buffer, '\0', SIZE + 1)`. */
  function Cleared(): (a: seq<byte>)
    ensures IsCArray(a) && Contents(a) == []
  {
    seq(Capacity + 1, _ => 0 as byte)
  }

  /**
    `buffer[strlen(buffer)] = c; if (strlen(buffer) == SIZE + 1) memset(...)`
    on the C array.
   */
  function StoreAtEnd(a: seq<byte>, c: byte): seq<byte>
    requires IsCArray(a)
  {
    var stored := a[Strlen(a) := c];
    if Strlen(stored) == Capacity + 1 then Cleared() else stored
  }

  /** `buffer[strlen(buffer) - 1] = '\0'` on a non-empty C array. */
  function DropLast(a: seq<byte>): seq<byte>
    requires IsCArray(a) && Strlen(a) > 0
  {
    a[Strlen(a) - 1 := 0]
  }

  /** A zero at `k` after `k` non-zero bytes makes `k` the length. */
  lemma StrlenAt(a: seq<byte>, k: nat)
    requires k < |a| && a[k] == 0
    requires forall i :: 0 <= i < k ==> a[i] != 0
    ensures Strlen(a) == k
  {
  }

  /** `Put` on sequences is exactly the driver's store on the C array. */
  lemma StoreAtEndRefines(a: seq<byte>, c: byte)
    requires IsCArray(a)
    ensures IsCArray(StoreAtEnd(a, c))
    ensures Contents(StoreAtEnd(a, c)) == Put(Contents(a), c)
  {
    var n := Strlen(a);
    var stored := a[n := c];
    if c == 0 {
      assert stored == a;
    } else if n < Capacity {
      StrlenAt(stored, n + 1);
      assert stored[..n + 1] == a[..n] + [c];
    } else {
      assert forall i :: 0 <= i < |stored| ==> stored[i] != 0;
      assert Strlen(stored) == Capacity + 1;
    }
  }

  /** Removing the last byte of the buffer is the driver's `= '\0'` store. */
  lemma DropLastRefines(a: seq<byte>)
    requires IsCArray(a) && Strlen(a) > 0
    ensures IsCArray(DropLast(a))
    ensures Contents(DropLast(a)) == Contents(a)[..|Contents(a)| - 1]
  {
    var n := Strlen(a);
    StrlenAt(DropLast(a), n - 1);
  }
}

=== FILE: framing.dfy ===
/**
  The 8N1 frame both engines agree on: one start bit (logic 0), the eight data
  bits least significant first, one stop bit (logic 1). A line level is a
  `bool`, `true` being logic 1.
 */
module Framing {
  import opened Buffer

  /** Ticks per frame: start bit, eight data bits, stop bit. */
  const FrameLength: nat := 10

  /**
    The values of both engines' `static int bit` counter outside the data
    bits: at rest, before a start bit, and on the stop tick. In between the
    counter is the index of the next data bit.
   */
  const StartBit: int := -1
  const StopBit: int := 8

  /** Bit `i` of `b`, computed as the transmitter does: `(b & (1 << i)) >> i`. */
  function BitOf(b: byte, i: nat): (r: bool)
    requires i < 8
    ensures r <==> (b >> i) % 2 == 1
  {
    (b & (1 << i)) >> i == 1
  }

  /** The data bits of a byte in the order they go on the line. */
  function DataBits(b: byte): (d: seq<bool>)
    ensures |d| == 8
    ensures forall i :: 0 <= i < 8 ==> d[i] == BitOf(b, i)
  {
    seq(8, i requires 0 <= i < 8 => BitOf(b, i))
  }

  /** The levels of one frame, tick by tick. */
  function Frame(b: byte): (f: seq<bool>)
    ensures |f| == FrameLength
    ensures !f[0] && f[FrameLength - 1]
    ensures f[1..9] == DataBits(b)
  {
    [false] + DataBits(b) + [true]
  }

  /** The frames of several bytes, back to back. */
  function Frames(bytes: seq<byte>): (f: seq<bool>)
    ensures |f| == FrameLength * |bytes|
  {
    if |bytes| == 0 then [] else Frame(bytes[0]) + Frames(bytes[1..])
  }

  function Weight(level: bool): byte {
    if level then 1 else 0
  }

  /** The byte whose bit `i` is `d[i]`: the sum of `d[i] * 2^i`. */
  function Pack(d: seq<bool>): byte
    requires |d| == 8
  {
    Weight(d[0])
    | (Weight(d[1]) << 1)
    | (Weight(d[2]) << 2)
    | (Weight(d[3]) << 3)
    | (Weight(d[4]) << 4)
    | (Weight(d[5]) << 5)
    | (Weight(d[6]) << 6)
    | (Weight(d[7]) << 7)
  }

  /** Bit `i` of `b`, shifted back into place, is `b`'s own bit `i`. */
  lemma WeightOfBit(b: byte, i: nat)
    requires i < 8
    ensures Weight(BitOf(b, i)) << i == b & (1 << i)
  {
  }

  /** Packing a byte's data bits gives the byte back. */
  lemma PackDataBits(b: byte)
    ensures Pack(DataBits(b)) == b
  {
    WeightOfBit(b, 0); WeightOfBit(b, 1); WeightOfBit(b, 2); WeightOfBit(b, 3);
    WeightOfBit(b, 4); WeightOfBit(b, 5); WeightOfBit(b, 6); WeightOfBit(b, 7);
    var d := DataBits(b);
    assert d[0] == BitOf(b, 0) && d[1] == BitOf(b, 1) && d[2] == BitOf(b, 2) && d[3] == BitOf(b, 3);
    assert d[4] == BitOf(b, 4) && d[5] == BitOf(b, 5) && d[6] == BitOf(b, 6) && d[7] == BitOf(b, 7);
    assert Pack(d) == (b & 1) | (b & 2) | (b & 4) | (b & 8) | (b & 16) | (b & 32) | (b & 64) | (b & 128);
  }

  /** The number whose binary digits, least significant first, are `d`: the sum of `d[i] * 2^i`. */
  function Value(d: seq<bool>): nat {
    if |d| == 0 then 0 else (if d[0] then 1 else 0) + 2 * Value(d[1..])
  }

  /** The place values of eight levels, added up. */
  function Digits(d: seq<bool>): int
    requires |d| == 8
  {
    (if d[0] then 1 else 0) + (if d[1] then 2 else 0) + (if d[2] then 4 else 0) + (if d[3] then 8 else 0) +
    (if d[4] then 16 else 0) + (if d[5] then 32 else 0) + (if d[6] then 64 else 0) + (if d[7] then 128 else 0)
  }

  lemma PackDigits(d: seq<bool>)
    requires |d| == 8
    ensures Pack(d) as int == Digits(d)
  {
  }

  lemma ValueDigits(d: seq<bool>)
    requires |d| == 8
    ensures Value(d) == Digits(d)
  {
    assert Value(d[8..]) == 0;
    assert Value(d[7..]) == (if d[7] then 1 else 0);
    assert Value(d[6..]) == (if d[6] then 1 else 0) + 2 * Value(d[7..]);
    assert Value(d[5..]) == (if d[5] then 1 else 0) + 2 * Value(d[6..]);
    assert Value(d[4..]) == (if d[4] then 1 else 0) + 2 * Value(d[5..]);
    assert Value(d[3..]) == (if d[3] then 1 else 0) + 2 * Value(d[4..]);
    assert Value(d[2..]) == (if d[2] then 1 else 0) + 2 * Value(d[3..]);
    assert Value(d[1..]) == (if d[1] then 1 else 0) + 2 * Value(d[2..]);
  }

  /** The packed byte, read as a number, is the sum of `d[i] * 2^i`. */
  lemma PackValue(d: seq<bool>)
    requires |d| == 8
    ensures Pack(d) as int == Value(d)
  {
    PackDigits(d);
    ValueDigits(d);
  }

  /** Bit `i` of a packed byte is the level it was packed from. */
  lemma BitOfPack(d: seq<bool>, i: nat)
    requires |d| == 8 && i < 8
    ensures BitOf(Pack(d), i) == d[i]
  {
  }

  /** Packing is injective on data bits: the data bits of `Pack(d)` are `d`. */
  lemma DataBitsPack(d: seq<bool>)
    requires |d| == 8
    ensures DataBits(Pack(d)) == d
  {
    forall i | 0 <= i < 8
      ensures DataBits(Pack(d))[i] == d[i]
    {
      BitOfPack(d, i);
    }
  }

  /** Frames of a concatenation are the concatenation of frames. */
  lemma {:induction false} FramesConcat(a: seq<byte>, b: seq<byte>)
    ensures Frames(a + b) == Frames(a) + Frames(b)
    decreases |a|
  {
    if |a| == 0 {
      assert a + b == b;
    } else {
      assert (a + b)[1..] == a[1..] + b;
      FramesConcat(a[1..], b);
    }
  }
}

=== FILE: gpio.dfy ===
/**
  The driver's register helpers, as pure functions over register words.
  GPFSEL0..5 hold a 3-bit function field per pin, ten pins to a word; GPSET,
  GPCLR and GPLEV hold one bit per pin, 32 pins to a word. The effect of a
  GPSET/GPCLR store on the pin levels (`ApplyWrite`) follows section 6.1 of
  the BCM2835 ARM Peripherals manual: writing 1 to a bit of GPSETn drives that
  output pin high, writing 1 to a bit of GPCLRn drives it low, 0 bits have no
  effect.
 */
module Gpio {

  /** The highest pin number the setters accept. */
  const MaxPin: int := 53

  /** GPFSEL0..GPFSEL5. */
  const FselWords: nat := 6

  /** GPSET0/1, GPCLR0/1 and GPLEV0/1. */
  const BankWords: nat := 2

  /** Function codes the driver writes. */
  const Input: bv32 := 0
  const Output: bv32 := 1

  predicate IsPin(g: int) {
    0 <= g <= MaxPin
  }

  /**
    The shift of a function field inside its GPFSEL word: three times the
    field's index `g % 10`.
   */
  predicate IsFieldShift(s: bv32) {
    s == 0 || s == 3 || s == 6 || s == 9 || s == 12 || s == 15 || s == 18 || s == 21 || s == 24 || s == 27
  }

  // The two tables below are `(g % 10) * 3` and `g % 32` as 32-bit words,
  // written out so that no symbolic integer is converted to a bit-vector.

  /** Shift of pin `g`'s function field in its GPFSEL word. */
  function FieldShift(g: int): (s: bv32)
    requires IsPin(g)
    ensures IsFieldShift(s)
  {
    match g % 10
    case 0 => 0 case 1 => 3 case 2 => 6 case 3 => 9 case 4 => 12
    case 5 => 15 case 6 => 18 case 7 => 21 case 8 => 24 case _ => 27
  }

  /** Index of pin `g`'s bit in its GPSET/GPCLR/GPLEV word. */
  function BitIndex(g: int): (i: bv32)
    requires IsPin(g)
    ensures i < 32
  {
    match g % 32
    case 0 => 0 case 1 => 1 case 2 => 2 case 3 => 3 case 4 => 4 case 5 => 5
    case 6 => 6 case 7 => 7 case 8 => 8 case 9 => 9 case 10 => 10 case 11 => 11
    case 12 => 12 case 13 => 13 case 14 => 14 case 15 => 15 case 16 => 16
    case 17 => 17 case 18 => 18 case 19 => 19 case 20 => 20 case 21 => 21
    case 22 => 22 case 23 => 23 case 24 => 24 case 25 => 25 case 26 => 26
    case 27 => 27 case 28 => 28 case 29 => 29 case 30 => 30 case _ => 31
  }

  lemma FieldShiftValue(g: int)
    requires IsPin(g)
    ensures FieldShift(g) as int == (g % 10) * 3
  {
  }

  lemma BitIndexValue(g: int)
    requires IsPin(g)
    ensures BitIndex(g) as int == g % 32
  {
  }

  /** Two pins sharing a GPFSEL word have different fields in it. */
  lemma FieldShiftDistinct(g: int, p: int)
    requires IsPin(g) && IsPin(p) && g != p && g / 10 == p / 10
    ensures FieldShift(g) != FieldShift(p)
  {
    FieldShiftValue(g);
    FieldShiftValue(p);
  }

  /** Two pins sharing a GPLEV word have different bits in it. */
  lemma BitIndexDistinct(g: int, p: int)
    requires IsPin(g) && IsPin(p) && g != p && g / 32 == p / 32
    ensures BitIndex(g) != BitIndex(p)
  {
    BitIndexValue(g);
    BitIndexValue(p);
  }

  /** The three bits of the field at shift `s`. */
  function FieldMask(s: bv32): bv32
    requires IsFieldShift(s)
  {
    7 << s
  }

  /** The 3-bit function field of pin `g`. */
  function PinFunction(fsel: seq<bv32>, g: int): bv32
    requires |fsel| == FselWords && IsPin(g)
  {
    (fsel[g / 10] >> FieldShift(g)) & 7
  }

  /** `w` with its field at shift `s` replaced by the low bits of `mode`. */
  function SetField(w: bv32, s: bv32, mode: bv32): bv32
    requires IsFieldShift(s)
  {
    Merge(w, mode << s, FieldMask(s))
  }

  /** The bits of `w` outside mask `m` and those of `x` under it. */
  function Merge(w: bv32, x: bv32, m: bv32): bv32 {
    (w & !m) | (x & m)
  }

  // The bit-level facts are kept one step per lemma: the solver handles each
  // alone cheaply, but not several at once.

  lemma FieldMasksDisjoint(s: bv32, t: bv32)
    requires IsFieldShift(s) && IsFieldShift(t) && s != t
    ensures FieldMask(s) & FieldMask(t) == 0
  {
  }

  /** Merging `x` under mask `m` leaves the bits under a disjoint mask `n` alone. */
  lemma MergeOutside(w: bv32, x: bv32, m: bv32, n: bv32)
    requires m & n == 0
    ensures Merge(w, x, m) & n == w & n
  {
  }

  /** A field is determined by the bits under its mask. */
  lemma FieldOfMasked(x: bv32, y: bv32, s: bv32)
    requires IsFieldShift(s)
    requires x & FieldMask(s) == y & FieldMask(s)
    ensures (x >> s) & 7 == (y >> s) & 7
  {
  }

  lemma SetFieldSets(w: bv32, s: bv32, mode: bv32)
    requires IsFieldShift(s)
    ensures (SetField(w, s, mode) >> s) & 7 == mode & 7
  {
  }

  lemma SetFieldKeeps(w: bv32, s: bv32, mode: bv32, t: bv32)
    requires IsFieldShift(s) && IsFieldShift(t) && s != t
    ensures (SetField(w, s, mode) >> t) & 7 == (w >> t) & 7
  {
    FieldMasksDisjoint(s, t);
    FieldOfMerge(w, mode << s, FieldMask(s), t);
  }

  /** Merging under a mask disjoint from field `t` leaves field `t` alone. */
  lemma FieldOfMerge(w: bv32, x: bv32, m: bv32, t: bv32)
    requires IsFieldShift(t) && m & FieldMask(t) == 0
    ensures (Merge(w, x, m) >> t) & 7 == (w >> t) & 7
  {
    MergeOutside(w, x, m, FieldMask(t));
    FieldOfMasked(Merge(w, x, m), w, t);
  }

  /** Every bit outside the field at shift `s` is unchanged. */
  lemma SetFieldKeepsRest(w: bv32, s: bv32, mode: bv32)
    requires IsFieldShift(s)
    ensures SetField(w, s, mode) & !FieldMask(s) == w & !FieldMask(s)
  {
    MergeOutside(w, mode << s, FieldMask(s), !FieldMask(s));
  }

  /** Bits 30 and 31 belong to no field and are never changed. */
  lemma SetFieldKeepsTop(w: bv32, s: bv32, mode: bv32)
    requires IsFieldShift(s)
    ensures SetField(w, s, mode) >> 30 == w >> 30
  {
  }

  /**
    GPIOFunction: set the function field of pin `g` to `mode & 7`. Every other
    pin's field, the two unused top bits of each word and every other word are
    unchanged.
   */
  function GpioFunction(fsel: seq<bv32>, g: int, mode: bv32): (r: seq<bv32>)
    requires |fsel| == FselWords && IsPin(g)
    ensures |r| == FselWords
    ensures PinFunction(r, g) == mode & 7
    ensures forall p :: IsPin(p) && p != g ==> PinFunction(r, p) == PinFunction(fsel, p)
    ensures forall i :: 0 <= i < FselWords ==> r[i] >> 30 == fsel[i] >> 30
    ensures forall i :: 0 <= i < FselWords && i != g / 10 ==> r[i] == fsel[i]
  {
    var r := fsel[g / 10 := SetField(fsel[g / 10], FieldShift(g), mode)];
    SetFieldSets(fsel[g / 10], FieldShift(g), mode);
    SetFieldKeepsTop(fsel[g / 10], FieldShift(g), mode);
    forall p | IsPin(p) && p != g
      ensures PinFunction(r, p) == PinFunction(fsel, p)
    {
      OtherPinKept(fsel, g, mode, p);
    }
    r
  }

  /**
    GPIOFunction keeps every bit of the written word outside pin `g`'s field,
    including the fields of GPFSEL5 that belong to no pin.
   */
  lemma GpioFunctionKeepsRest(fsel: seq<bv32>, g: int, mode: bv32)
    requires |fsel| == FselWords && IsPin(g)
    ensures GpioFunction(fsel, g, mode)[g / 10] & !FieldMask(FieldShift(g)) ==
      fsel[g / 10] & !FieldMask(FieldShift(g))
  {
    SetFieldKeepsRest(fsel[g / 10], FieldShift(g), mode);
  }

  lemma OtherPinKept(fsel: seq<bv32>, g: int, mode: bv32, p: int)
    requires |fsel| == FselWords && IsPin(g) && IsPin(p) && p != g
    ensures PinFunction(fsel[g / 10 := SetField(fsel[g / 10], FieldShift(g), mode)], p) == PinFunction(fsel, p)
  {
    if p / 10 == g / 10 {
      SameWordPinKept(fsel, g, mode, p);
    } else {
      OtherWordPinKept(fsel, g / 10, SetField(fsel[g / 10], FieldShift(g), mode), p);
    }
  }

  /** Replacing a GPFSEL word leaves the pins of the other words alone. */
  lemma OtherWordPinKept(fsel: seq<bv32>, i: int, v: bv32, p: int)
    requires |fsel| == FselWords && 0 <= i < FselWords && IsPin(p) && p / 10 != i
    ensures PinFunction(fsel[i := v], p) == PinFunction(fsel, p)
  {
  }

  lemma SameWordPinKept(fsel: seq<bv32>, g: int, mode: bv32, p: int)
    requires |fsel| == FselWords && IsPin(g) && IsPin(p) && p != g && p / 10 == g / 10
    ensures PinFunction(fsel[g / 10 := SetField(fsel[g / 10], FieldShift(g), mode)], p) == PinFunction(fsel, p)
  {
    FieldShiftDistinct(g, p);
    SetFieldKeeps(fsel[g / 10], FieldShift(g), mode, FieldShift(p));
  }

  /**
    GPIOOutputValueSet's single store: `mask` written to GPSET[bank] when
    `toSet`, to GPCLR[bank] otherwise.
   */
  datatype PinWrite = PinWrite(toSet: bool, bank: nat, mask: bv32)

  /** The mask of bit `i` of a GPSET/GPCLR/GPLEV word. */
  function BitMask(i: bv32): bv32
    requires i < 32
  {
    1 << i
  }

  /** Bit `i` of a word, as a level. */
  function BitOfWord(w: bv32, i: bv32): bool
    requires i < 32
  {
    (w >> i) & 1 == 1
  }

  /** GPIOOutputValueSet: drive pin `g` to `value`. */
  function OutputValueSet(g: int, value: bool): (w: PinWrite)
    requires IsPin(g)
    ensures w.toSet == value && w.bank == g / 32 && w.bank < BankWords
    // exactly one bit set, the bit of pin `g`
    ensures w.mask & (w.mask - 1) == 0 && BitOfWord(w.mask, BitIndex(g))
  {
    PinWrite(value, g / 32, BitMask(BitIndex(g)))
  }

  /**
    GPIOInputValueGet: the level of pin `g`, bit `g % 32` of GPLEV word
    `g / 32`. (The driver's two branches shift by `g - 32` for pins above 31
    and by `g` otherwise; both amounts are `g % 32`.)
   */
  function InputValueGet(gplev: seq<bv32>, g: int): (level: bool)
    requires |gplev| == BankWords && IsPin(g)
    ensures level == BitOfWord(gplev[g / 32], BitIndex(g))
  {
    ReadBit(gplev[g / 32], BitIndex(g))
  }

  /** The driver's read of bit `i`: mask it out, then shift it down. */
  function ReadBit(w: bv32, i: bv32): (level: bool)
    requires i < 32
    ensures level == BitOfWord(w, i)
  {
    (w & BitMask(i)) >> i == 1
  }

  /** The levels of one GPLEV word after `mask` is stored to GPSET (`toSet`) or GPCLR. */
  function StoreLevels(w: bv32, mask: bv32, toSet: bool): bv32 {
    if toSet then w | mask else w & !mask
  }

  /** The pin levels after a GPSET/GPCLR store, for pins configured as outputs. */
  function ApplyWrite(gplev: seq<bv32>, w: PinWrite): seq<bv32>
    requires |gplev| == BankWords && w.bank < BankWords
  {
    gplev[w.bank := StoreLevels(gplev[w.bank], w.mask, w.toSet)]
  }

  lemma SetBitReads(w: bv32, i: bv32, value: bool)
    requires i < 32
    ensures BitOfWord(StoreLevels(w, BitMask(i), value), i) == value
  {
  }

  lemma BitMasksDisjoint(i: bv32, j: bv32)
    requires i < 32 && j < 32 && i != j
    ensures BitMask(i) & BitMask(j) == 0
  {
  }

  /** A store under mask `m` leaves the bits under a disjoint mask `n` alone. */
  lemma StoreOutside(w: bv32, m: bv32, n: bv32, toSet: bool)
    requires m & n == 0
    ensures StoreLevels(w, m, toSet) & n == w & n
  {
  }

  /** A bit is determined by the word under its mask. */
  lemma BitOfMasked(x: bv32, y: bv32, j: bv32)
    requires j < 32 && x & BitMask(j) == y & BitMask(j)
    ensures BitOfWord(x, j) == BitOfWord(y, j)
  {
  }

  lemma SetBitMasked(w: bv32, i: bv32, j: bv32, value: bool)
    requires i < 32 && j < 32 && i != j
    ensures StoreLevels(w, BitMask(i), value) & BitMask(j) == w & BitMask(j)
  {
    BitMasksDisjoint(i, j);
    StoreOutside(w, BitMask(i), BitMask(j), value);
  }

  lemma SetBitKeeps(w: bv32, i: bv32, j: bv32, value: bool)
    requires i < 32 && j < 32 && i != j
    ensures BitOfWord(StoreLevels(w, BitMask(i), value), j) == BitOfWord(w, j)
  {
    SetBitMasked(w, i, j, value);
    BitOfMasked(StoreLevels(w, BitMask(i), value), w, j);
  }

  /**
    Reading a pin back after driving it gives the driven level, and every other
    pin keeps its level.
   */
  lemma WriteThenRead(gplev: seq<bv32>, g: int, value: bool)
    requires |gplev| == BankWords && IsPin(g)
    ensures InputValueGet(ApplyWrite(gplev, OutputValueSet(g, value)), g) == value
    ensures forall p :: IsPin(p) && p != g ==>
      InputValueGet(ApplyWrite(gplev, OutputValueSet(g, value)), p) == InputValueGet(gplev, p)
  {
    forall p | IsPin(p) && p != g
      ensures InputValueGet(ApplyWrite(gplev, OutputValueSet(g, value)), p) == InputValueGet(gplev, p)
    {
      OtherPinLevelKept(gplev, g, value, p);
    }
    SetBitReads(gplev[g / 32], BitIndex(g), value);
  }

  lemma OtherPinLevelKept(gplev: seq<bv32>, g: int, value: bool, p: int)
    requires |gplev| == BankWords && IsPin(g) && IsPin(p) && p != g
    ensures InputValueGet(ApplyWrite(gplev, OutputValueSet(g, value)), p) == InputValueGet(gplev, p)
  {
    if p / 32 == g / 32 {
      SameWordLevelKept(gplev, g, value, p);
    } else {
      OtherWordLevelKept(gplev, g / 32, StoreLevels(gplev[g / 32], BitMask(BitIndex(g)), value), p);
    }
  }

  /** Replacing a GPLEV word leaves the pins of the other word alone. */
  lemma OtherWordLevelKept(gplev: seq<bv32>, i: int, v: bv32, p: int)
    requires |gplev| == BankWords && 0 <= i < BankWords && IsPin(p) && p / 32 != i
    ensures InputValueGet(gplev[i := v], p) == InputValueGet(gplev, p)
  {
  }

  lemma SameWordLevelKept(gplev: seq<bv32>, g: int, value: bool, p: int)
    requires |gplev| == BankWords && IsPin(g) && IsPin(p) && p != g && p / 32 == g / 32
    ensures InputValueGet(ApplyWrite(gplev, OutputValueSet(g, value)), p) == InputValueGet(gplev, p)
  {
    BitIndexDistinct(g, p);
    SetBitKeeps(gplev[g / 32], BitIndex(g), BitIndex(p), value);
  }
}

=== FILE: receive.dfy ===
/**
  The receive engine (FunctionTimerRX), taking one sample of the RX line per
  timer tick (the driver reads the pin twice in a data tick; both reads are
  taken to see the same level). At rest a low sample is taken as a start bit; the next eight
  samples are shifted into the accumulator `data` (set or clear bit 7, then
  shift right, except after the eighth); the tick after that is the stop tick,
  which ignores the line and stores `data` in the inbox.
 */
module Receive {
  import opened Buffer
  import opened Framing

  /**
    `bit` is the tick function's static counter: -1 at rest, 0..7 the index of
    the next data bit, 8 when the next tick is the stop tick. `data` is RX_DATA.
   */
  datatype RxState = RxState(bit: int, data: byte, inbox: seq<byte>)

  predicate Valid(s: RxState) {
    StartBit <= s.bit <= StopBit && Buffer.Valid(s.inbox)
  }

  /**
    The accumulator after data sample `level` for data bit `bit`: the sample
    goes into bit 7, then everything moves down one place unless this was the
    last data bit.
   */
  function ShiftIn(data: byte, level: bool, bit: int): byte {
    var sampled := if !level then data & 0x7F else data | 0x80;
    if bit != 7 then sampled >> 1 else sampled
  }

  /** The accumulator after the first `k` data samples `d[..k]`. */
  function Accumulated(v: byte, d: seq<bool>, k: nat): byte
    requires k <= |d| && k <= 8
  {
    if k == 0 then v else ShiftIn(Accumulated(v, d, k - 1), d[k - 1], k - 1)
  }

  /** Shifting in eight samples packs them, whatever the accumulator held. */
  lemma ShiftInEight(v: byte, d: seq<bool>)
    requires |d| == 8
    ensures Accumulated(v, d, 8) == Pack(d)
  {
    var v8 := ShiftIn(ShiftIn(ShiftIn(ShiftIn(ShiftIn(ShiftIn(ShiftIn(ShiftIn(
                v, d[0], 0), d[1], 1), d[2], 2), d[3], 3), d[4], 4), d[5], 5), d[6], 6), d[7], 7);
    assert v8 == Pack(d);
    assert Accumulated(v, d, 8) == v8 by {
      assert Accumulated(v, d, 1) == ShiftIn(v, d[0], 0);
      assert Accumulated(v, d, 2) == ShiftIn(Accumulated(v, d, 1), d[1], 1);
      assert Accumulated(v, d, 3) == ShiftIn(Accumulated(v, d, 2), d[2], 2);
      assert Accumulated(v, d, 4) == ShiftIn(Accumulated(v, d, 3), d[3], 3);
      assert Accumulated(v, d, 5) == ShiftIn(Accumulated(v, d, 4), d[4], 4);
      assert Accumulated(v, d, 6) == ShiftIn(Accumulated(v, d, 5), d[5], 5);
      assert Accumulated(v, d, 7) == ShiftIn(Accumulated(v, d, 6), d[6], 6);
    }
  }

  /**
    One tick of FunctionTimerRX with the sampled level `level`. The driver's
    `RX_DATA |= ~0b01111111` is `data | 0x80` once truncated to a byte.
   */
  function Tick(s: RxState, level: bool): (r: RxState)
    requires Buffer.Valid(s.inbox)
    ensures Valid(s) ==> Valid(r)
    ensures Buffer.Valid(r.inbox)
    // at rest, a high line is no activity
    ensures s.bit == StartBit && level ==> r == s
    // at rest, a low line is a start bit
    ensures s.bit == StartBit && !level ==> r == s.(bit := 0)
    // the inbox only changes on the stop tick, which returns the engine to rest
    ensures r.inbox != s.inbox ==> s.bit == StopBit
    ensures s.bit == StopBit ==> r.bit == StartBit && r.inbox == Put(s.inbox, s.data)
    // a data tick advances the counter and leaves the inbox alone
    ensures 0 <= s.bit < 8 ==> r.bit == s.bit + 1 && r.inbox == s.inbox
  {
    if !level && s.bit == StartBit then
      s.(bit := 0)
    else if 0 <= s.bit < 8 then
      s.(bit := s.bit + 1, data := ShiftIn(s.data, level, s.bit))
    else if s.bit == StopBit then
      RxState(StartBit, s.data, Put(s.inbox, s.data))
    else
      s
  }

  /** Ticks over the sampled levels, in order. */
  function Run(s: RxState, levels: seq<bool>): (r: RxState)
    requires Buffer.Valid(s.inbox)
    ensures Buffer.Valid(r.inbox)
    ensures Valid(s) ==> Valid(r)
    decreases |levels|
  {
    if |levels| == 0 then s else Run(Tick(s, levels[0]), levels[1..])
  }

  /** Running over a concatenation is running over each part in turn. */
  lemma {:induction false} RunConcat(s: RxState, a: seq<bool>, b: seq<bool>)
    requires Buffer.Valid(s.inbox)
    ensures Run(s, a + b) == Run(Run(s, a), b)
    decreases |a|
  {
    if |a| == 0 {
      assert a + b == b;
    } else {
      assert (a + b)[1..] == a[1..] + b;
      RunConcat(Tick(s, a[0]), a[1..], b);
    }
  }

  lemma RunSnoc(s: RxState, a: seq<bool>, x: bool)
    requires Buffer.Valid(s.inbox)
    ensures Run(s, a + [x]) == Tick(Run(s, a), x)
  {
    RunConcat(s, a, [x]);
  }

  /**
    Eight data samples after a start bit leave the accumulator holding the
    byte whose bit `i` is the `i`-th sample, whatever it held before, and the
    engine waiting for the stop tick.
   */
  lemma DataPhase(s: RxState, d: seq<bool>)
    requires Buffer.Valid(s.inbox)
    requires s.bit == 0 && |d| == 8
    ensures Run(s, d) == RxState(StopBit, Pack(d), s.inbox)
  {
    var v := s.data;
    assert Run(s, d[..0]) == s;
    for k := 0 to 8
      invariant Run(s, d[..k]) == RxState(k, Accumulated(v, d, k), s.inbox)
    {
      RunSnoc(s, d[..k], d[k]);
      assert d[..k + 1] == d[..k] + [d[k]];
    }
    assert d[..8] == d;
    ShiftInEight(v, d);
  }

  /**
    After the start bit, eight data samples leave `RX_DATA` holding the sum
    of `d[i] * 2^i`, whatever it held before.
   */
  lemma DecodedValue(s: RxState, d: seq<bool>)
    requires Buffer.Valid(s.inbox)
    requires s.bit == 0 && |d| == 8
    ensures Run(s, d).data as int == Value(d)
  {
    DataPhase(s, d);
    PackValue(d);
  }

  /**
    A whole frame from rest: a low start sample, eight data samples and a
    stop sample of either level store the packed data byte in the inbox
    (subject to the buffer's zero and overflow rules) and return to rest.
   */
  lemma ReceiveFrame(s: RxState, d: seq<bool>, stop: bool)
    requires Buffer.Valid(s.inbox)
    requires s.bit == StartBit && |d| == 8
    ensures Run(s, [false] + d + [stop]) == RxState(StartBit, Pack(d), Put(s.inbox, Pack(d)))
  {
    RunConcat(s, [false], d + [stop]);
    assert [false] + d + [stop] == [false] + (d + [stop]);
    assert Run(s, [false]) == s.(bit := 0);
    RunConcat(s.(bit := 0), d, [stop]);
    DataPhase(s.(bit := 0), d);
    assert Run(RxState(StopBit, Pack(d), s.inbox), [stop]) == Tick(RxState(StopBit, Pack(d), s.inbox), stop);
  }

  /** The frame of byte `b`, received from rest, stores `b`. */
  lemma ReceiveByte(s: RxState, b: byte)
    requires Buffer.Valid(s.inbox)
    requires s.bit == StartBit
    ensures Run(s, Frame(b)) == RxState(StartBit, b, Put(s.inbox, b))
  {
    ReceiveFrame(s, DataBits(b), true);
    PackDataBits(b);
  }

  /**
    Back-to-back frames received from rest store their bytes in order, as
    `PutAll` does, and leave the engine at rest.
   */
  lemma {:induction false} ReceiveAll(s: RxState, bytes: seq<byte>)
    requires Buffer.Valid(s.inbox)
    requires s.bit == StartBit
    ensures Run(s, Frames(bytes)).bit == StartBit
    ensures Run(s, Frames(bytes)).inbox == PutAll(s.inbox, bytes)
    decreases |bytes|
  {
    if |bytes| > 0 {
      RunConcat(s, Frame(bytes[0]), Frames(bytes[1..]));
      ReceiveByte(s, bytes[0]);
      ReceiveAll(RxState(StartBit, bytes[0], Put(s.inbox, bytes[0])), bytes[1..]);
    }
  }

  /** At rest, a line held high leaves the engine exactly as it was. */
  lemma {:induction false} IdleLine(s: RxState, n: nat)
    requires Buffer.Valid(s.inbox)
    requires s.bit == StartBit
    ensures Run(s, seq(n, _ => true)) == s
    decreases n
  {
    if n > 0 {
      assert seq(n, _ => true)[1..] == seq(n - 1, _ => true);
      IdleLine(s, n - 1);
    }
  }
}

=== FILE: softuart.dfy ===
/**
  The driver as a whole: its configuration, the GPFSEL words it programs, the
  two engines with their buffers, and the operations reachable from outside —
  the two timer ticks and the sysfs attribute writes and reads. Every
  operation is one atomic step on an immutable `Driver` value; the hrtimer
  callbacks and the sysfs callbacks may interleave in any order.
 */
module SoftUart {
  import opened Buffer
  import opened Framing
  import Gpio
  import Transmit
  import Receive

  /** Module parameter defaults. */
  const DefaultBaudRate: int := 4800
  const DefaultTxPin: int := 4
  const DefaultRxPin: int := 2

  /** The range the baudrate attribute accepts. */
  const MinBaudRate: int := 1200
  const MaxBaudRate: int := 19200

  datatype Option<T> = None | Some(value: T)

  /** BAUDRATE, GPIO_TX, GPIO_RX and LOOPBACK. */
  datatype Config = Config(baudRate: int, txPin: int, rxPin: int, loopback: bool)

  /**
    The driver's state. `fsel` is GPFSEL0..5; the levels of the pins (GPLEV)
    belong to the outside world and are passed to the RX tick.
   */
  datatype Driver = Driver(config: Config, fsel: seq<bv32>, tx: Transmit.TxState, rx: Receive.RxState)

  /** What an attribute write returns: the byte count, or -EINVAL. */
  datatype Status = Accepted | Einval

  /**
    The state invariant: both pins are GPIO numbers, the bit period is
    defined, both frame counters lie in [-1, 8] and both buffers are
    well-formed.
   */
  predicate Valid(d: Driver) {
    && d.config.baudRate > 0
    && Gpio.IsPin(d.config.txPin)
    && Gpio.IsPin(d.config.rxPin)
    && |d.fsel| == Gpio.FselWords
    && Transmit.Valid(d.tx)
    && Receive.Valid(d.rx)
  }

  /**
    The state after module init with default parameters, from whatever the
    GPFSEL words held: TX pin made an output, then RX pin made an input, both
    buffers empty, both engines at rest.
   */
  function Init(fsel: seq<bv32>): (d: Driver)
    requires |fsel| == Gpio.FselWords
    ensures Valid(d)
    ensures d.config == Config(DefaultBaudRate, DefaultTxPin, DefaultRxPin, false)
    ensures Gpio.PinFunction(d.fsel, DefaultTxPin) == Gpio.Output
    ensures Gpio.PinFunction(d.fsel, DefaultRxPin) == Gpio.Input
    ensures forall p :: Gpio.IsPin(p) && p != DefaultTxPin && p != DefaultRxPin ==>
      Gpio.PinFunction(d.fsel, p) == Gpio.PinFunction(fsel, p)
    ensures d.tx.outbox == [] && d.rx.inbox == []
    ensures d.tx.bit == StartBit && d.rx.bit == StartBit
  {
    var withTx := Gpio.GpioFunction(fsel, DefaultTxPin, Gpio.Output);
    Driver(
      Config(DefaultBaudRate, DefaultTxPin, DefaultRxPin, false),
      Gpio.GpioFunction(withTx, DefaultRxPin, Gpio.Input),
      Transmit.TxState(StartBit, []),
      Receive.RxState(StartBit, 0, []))
  }

  // ---------------------------------------------------------------------
  // Timing
  // ---------------------------------------------------------------------

  /**
    The tick period in whole microseconds, `1000000 / BAUDRATE`: the largest
    period that does not exceed the nominal bit time.
   */
  function BitPeriodMicros(baudRate: int): (p: int)
    requires baudRate > 0
    ensures p >= 0
    ensures p * baudRate <= 1000000 < (p + 1) * baudRate
  {
    1000000 / baudRate
  }

  /** Every accepted baud rate gives a period between 52 and 833 microseconds. */
  lemma BitPeriodRange(baudRate: int)
    requires MinBaudRate <= baudRate <= MaxBaudRate
    ensures 52 <= BitPeriodMicros(baudRate) <= 833
  {
    var p := BitPeriodMicros(baudRate);
    MulMonotone(p + 1, baudRate, MaxBaudRate);
    MulMonotone(p, MinBaudRate, baudRate);
  }

  lemma MulMonotone(a: int, b: int, c: int)
    requires a >= 0 && b <= c
    ensures a * b <= a * c
  {
  }

  // ---------------------------------------------------------------------
  // Timer ticks
  // ---------------------------------------------------------------------

  /** The GPSET/GPCLR store a TX tick makes, if any. */
  function PinWriteFor(txPin: int, driven: Transmit.Drive): (w: Option<Gpio.PinWrite>)
    requires Gpio.IsPin(txPin)
    ensures w.None? <==> driven.Quiet?
  {
    match driven
    case Quiet => None
    case Level(high) => Some(Gpio.OutputValueSet(txPin, high))
  }

  datatype TxResult = TxResult(next: Driver, write: Option<Gpio.PinWrite>)

  /** FunctionTimerTX on the whole driver: the engine steps and its level goes out on the TX pin. */
  function TxTick(d: Driver): (r: TxResult)
    requires Valid(d)
    ensures Valid(r.next)
    ensures r.next == d.(tx := r.next.tx)
    // a pin is written exactly when there is something to send
    ensures r.write.Some? <==> |d.tx.outbox| > 0
    // the store is GPIOOutputValueSet on the TX pin with the engine's level
    ensures |d.tx.outbox| > 0 ==>
      r.write == Some(Gpio.OutputValueSet(d.config.txPin, Transmit.Tick(d.tx).driven.high))
  {
    var step := Transmit.Tick(d.tx);
    TxResult(d.(tx := step.next), PinWriteFor(d.config.txPin, step.driven))
  }

  /**
    After the store a TX tick makes, a TX pin configured as an output reads
    back the level the engine drove, and no other pin changes level. (A store
    to an input pin changes no level, so the read-back needs output mode.)
   */
  lemma TxTickDrivesPin(d: Driver, gplev: seq<bv32>)
    requires Valid(d) && |gplev| == Gpio.BankWords
    requires Gpio.PinFunction(d.fsel, d.config.txPin) == Gpio.Output
    requires |d.tx.outbox| > 0
    ensures var r := TxTick(d);
      && r.write.Some?
      && Transmit.Tick(d.tx).driven == Transmit.Level(
           Gpio.InputValueGet(Gpio.ApplyWrite(gplev, r.write.value), d.config.txPin))
      && forall p :: Gpio.IsPin(p) && p != d.config.txPin ==>
           Gpio.InputValueGet(Gpio.ApplyWrite(gplev, r.write.value), p) == Gpio.InputValueGet(gplev, p)
  {
    var driven := Transmit.Tick(d.tx).driven;
    Gpio.WriteThenRead(gplev, d.config.txPin, driven.high);
  }

  /**
    FunctionTimerRX on the whole driver: the RX pin is read from the GPLEV
    words `gplev` and the engine steps on that level. (The driver reads the
    pin twice in a data tick; both reads see the same `gplev`.)
   */
  function RxTick(d: Driver, gplev: seq<bv32>): (r: Driver)
    requires Valid(d) && |gplev| == Gpio.BankWords
    ensures Valid(r)
    ensures r == d.(rx := r.rx)
    // the level sampled is bit `rxPin % 32` of GPLEV word `rxPin / 32`
    ensures r.rx == Receive.Tick(d.rx, Gpio.BitOfWord(gplev[d.config.rxPin / 32], Gpio.BitIndex(d.config.rxPin)))
  {
    d.(rx := Receive.Tick(d.rx, Gpio.InputValueGet(gplev, d.config.rxPin)))
  }

  // ---------------------------------------------------------------------
  // Attribute writes with validation
  // ---------------------------------------------------------------------

  /**
    set_gpio_tx_callback: reject a pin outside 0..53; otherwise make the old
    TX pin an input and the new one an output.
   */
  function SetTxPin(d: Driver, gpio: int): (r: (Driver, Status))
    requires Valid(d)
    ensures Valid(r.0)
    ensures r.1 == Accepted <==> 0 <= gpio <= Gpio.MaxPin
    ensures r.1 == Einval ==> r.0 == d
    ensures r.1 == Accepted ==>
      && r.0.config == d.config.(txPin := gpio)
      && r.0.tx == d.tx && r.0.rx == d.rx
      && Gpio.PinFunction(r.0.fsel, gpio) == Gpio.Output
      && (gpio != d.config.txPin ==> Gpio.PinFunction(r.0.fsel, d.config.txPin) == Gpio.Input)
      && (forall p :: Gpio.IsPin(p) && p != gpio && p != d.config.txPin ==>
           Gpio.PinFunction(r.0.fsel, p) == Gpio.PinFunction(d.fsel, p))
      && forall i :: 0 <= i < Gpio.FselWords && i != gpio / 10 && i != d.config.txPin / 10 ==>
           r.0.fsel[i] == d.fsel[i]
  {
    if gpio > Gpio.MaxPin || gpio < 0 then (d, Einval)
    else
      var restored := Gpio.GpioFunction(d.fsel, d.config.txPin, Gpio.Input);
      (d.(config := d.config.(txPin := gpio), fsel := Gpio.GpioFunction(restored, gpio, Gpio.Output)), Accepted)
  }

  /**
    set_gpio_rx_callback: reject a pin outside 0..53; otherwise make the new
    pin an input. The old RX pin keeps its function.
   */
  function SetRxPin(d: Driver, gpio: int): (r: (Driver, Status))
    requires Valid(d)
    ensures Valid(r.0)
    ensures r.1 == Accepted <==> 0 <= gpio <= Gpio.MaxPin
    ensures r.1 == Einval ==> r.0 == d
    ensures r.1 == Accepted ==>
      && r.0.config == d.config.(rxPin := gpio)
      && r.0.tx == d.tx && r.0.rx == d.rx
      && Gpio.PinFunction(r.0.fsel, gpio) == Gpio.Input
      && (forall p :: Gpio.IsPin(p) && p != gpio ==>
           Gpio.PinFunction(r.0.fsel, p) == Gpio.PinFunction(d.fsel, p))
      && forall i :: 0 <= i < Gpio.FselWords && i != gpio / 10 ==> r.0.fsel[i] == d.fsel[i]
  {
    if gpio > Gpio.MaxPin || gpio < 0 then (d, Einval)
    else (d.(config := d.config.(rxPin := gpio), fsel := Gpio.GpioFunction(d.fsel, gpio, Gpio.Input)), Accepted)
  }

  /** set_loopback_callback: only 0 and 1 are accepted. */
  function SetLoopback(d: Driver, value: int): (r: (Driver, Status))
    requires Valid(d)
    ensures Valid(r.0)
    ensures r.1 == Accepted <==> value == 0 || value == 1
    ensures r.1 == Einval ==> r.0 == d
    ensures r.1 == Accepted ==> r.0 == d.(config := d.config.(loopback := value == 1))
  {
    if value != 0 && value != 1 then (d, Einval)
    else (d.(config := d.config.(loopback := value == 1)), Accepted)
  }

  /** set_baudrate_callback: only 1200..19200 is accepted. */
  function SetBaudrate(d: Driver, value: int): (r: (Driver, Status))
    requires Valid(d)
    ensures Valid(r.0)
    ensures r.1 == Accepted <==> MinBaudRate <= value <= MaxBaudRate
    ensures r.1 == Einval ==> r.0 == d
    ensures r.1 == Accepted ==> r.0 == d.(config := d.config.(baudRate := value))
    ensures r.1 == Accepted ==> 52 <= BitPeriodMicros(r.0.config.baudRate) <= 833
  {
    if value < MinBaudRate || value > MaxBaudRate then (d, Einval)
    else
      BitPeriodRange(value);
      (d.(config := d.config.(baudRate := value)), Accepted)
  }

  /** The boundary values either side of each accepted range are refused. */
  lemma SetterBoundaries(d: Driver)
    requires Valid(d)
    ensures SetBaudrate(d, 1199) == (d, Einval) && SetBaudrate(d, 19201) == (d, Einval)
    ensures SetBaudrate(d, 1200).1 == Accepted && SetBaudrate(d, 19200).1 == Accepted
    ensures SetTxPin(d, 54) == (d, Einval) && SetTxPin(d, -1) == (d, Einval)
    ensures SetRxPin(d, 54) == (d, Einval) && SetRxPin(d, -1) == (d, Einval)
    ensures SetTxPin(d, 0).1 == Accepted && SetTxPin(d, 53).1 == Accepted
    ensures SetLoopback(d, 2) == (d, Einval) && SetLoopback(d, -1) == (d, Einval)
  {
  }

  // ---------------------------------------------------------------------
  // The data attribute
  // ---------------------------------------------------------------------

  /**
    Byte `k` of the written text, the text being followed by its
    terminating zero: positions at or past the end read as that zero.
   */
  function CharAt(buf: seq<byte>, k: nat): (c: byte)
    ensures k < |buf| ==> c == buf[k]
    ensures k >= |buf| ==> c == 0
  {
    if k < |buf| then buf[k] else 0
  }

  /**
    What a write of `buf` to the data attribute does, stated on whole
    sequences: in loopback mode the text goes into the inbox in order;
    otherwise it goes into the outbox reversed, because the transmitter
    sends from the end.
   */
  function Submit(d: Driver, buf: seq<byte>): (r: Driver)
    requires Valid(d)
    ensures Valid(r)
    ensures r.config == d.config && r.fsel == d.fsel
    ensures r.tx.bit == d.tx.bit && r.rx.bit == d.rx.bit && r.rx.data == d.rx.data
    // exactly one buffer is written, chosen by the loopback flag
    ensures d.config.loopback ==> r.tx == d.tx
    ensures !d.config.loopback ==> r.rx == d.rx
  {
    var text := Contents(buf);
    if d.config.loopback then
      d.(rx := d.rx.(inbox := PutAll(d.rx.inbox, text)))
    else
      d.(tx := d.tx.(outbox := PutAll(d.tx.outbox, Reverse(text))))
  }

  /**
    set_data_callback as the driver runs it: for `n` from 0 to `strlen(buf)`
    inclusive, store `buf[n]` in the inbox (loopback) or `buf[strlen(buf) - n]`
    in the outbox, each store subject to the zero and overflow rules. The
    terminator is stored too: last in loopback mode, first otherwise, where it
    changes nothing.
   */
  method SetData(d: Driver, buf: seq<byte>) returns (r: Driver)
    requires Valid(d)
    ensures r == Submit(d, buf)
  {
    var len := Strlen(buf);
    var text := Contents(buf);
    var n := 0;
    // LOOPBACK does not change during the loop, so the test is hoisted
    if d.config.loopback {
      var inbox := d.rx.inbox;
      while n <= len
        invariant 0 <= n <= len + 1
        invariant Buffer.Valid(inbox)
        invariant inbox == PutAll(d.rx.inbox, InOrder(text, n))
      {
        InOrderStep(d.rx.inbox, buf, n);
        inbox := Put(inbox, CharAt(buf, n));
        n := n + 1;
      }
      assert InOrder(text, n) == text;
      r := d.(rx := d.rx.(inbox := inbox));
    } else {
      var outbox := d.tx.outbox;
      while n <= len
        invariant 0 <= n <= len + 1
        invariant Buffer.Valid(outbox)
        invariant outbox == PutAll(d.tx.outbox, Reversed(text, n))
      {
        ReversedStep(d.tx.outbox, buf, n);
        outbox := Put(outbox, CharAt(buf, len - n));
        n := n + 1;
      }
      assert Reversed(text, n) == Reverse(text);
      r := d.(tx := d.tx.(outbox := outbox));
    }
  }

  /** The text bytes a loopback write has stored after `n` passes. */
  function InOrder(text: seq<byte>, n: nat): seq<byte> {
    text[..if n <= |text| then n else |text|]
  }

  /**
    The text bytes a non-loopback write has stored after `n` passes: the
    first pass stores the terminator, each later one the next byte from the
    end.
   */
  function Reversed(text: seq<byte>, n: nat): seq<byte> {
    Reverse(text)[..if n == 0 then 0 else if n - 1 <= |text| then n - 1 else |text|]
  }

  lemma InOrderStep(s: seq<byte>, buf: seq<byte>, n: nat)
    requires Buffer.Valid(s) && n <= Strlen(buf)
    ensures PutAll(s, InOrder(Contents(buf), n + 1)) == Put(PutAll(s, InOrder(Contents(buf), n)), CharAt(buf, n))
  {
    var text := Contents(buf);
    if n < |text| {
      StoreNext(s, text, n);
    } else {
      assert CharAt(buf, n) == 0;
    }
  }

  lemma ReversedStep(s: seq<byte>, buf: seq<byte>, n: nat)
    requires Buffer.Valid(s) && n <= Strlen(buf)
    ensures PutAll(s, Reversed(Contents(buf), n + 1)) ==
      Put(PutAll(s, Reversed(Contents(buf), n)), CharAt(buf, Strlen(buf) - n))
  {
    var text := Contents(buf);
    if n > 0 {
      var r := Reverse(text);
      ReversedPass(buf, n);
      StoreNext(s, r, n - 1);
    } else {
      assert CharAt(buf, Strlen(buf)) == 0;
    }
  }

  /** Pass `n > 0` of a non-loopback write stores the next byte of the reversed text. */
  lemma ReversedPass(buf: seq<byte>, n: nat)
    requires 0 < n <= Strlen(buf)
    ensures var r := Reverse(Contents(buf));
      && n - 1 < |r|
      && Reversed(Contents(buf), n) == r[..n - 1] && Reversed(Contents(buf), n + 1) == r[..n]
      && CharAt(buf, Strlen(buf) - n) == r[n - 1]
  {
    assert |Contents(buf)| == Strlen(buf);
  }

  /** One more byte of `bytes` stored is `PutAll` over one more element. */
  lemma StoreNext(s: seq<byte>, bytes: seq<byte>, k: nat)
    requires Buffer.Valid(s) && k < |bytes|
    ensures PutAll(s, bytes[..k + 1]) == Put(PutAll(s, bytes[..k]), bytes[k])
  {
    assert bytes[..k + 1] == bytes[..k] + [bytes[k]];
    PutAllConcat(s, bytes[..k], [bytes[k]]);
  }

  /**
    get_data_callback: hand out everything received so far and empty the
    inbox.
   */
  function GetData(d: Driver): (r: (Driver, seq<byte>))
    requires Valid(d)
    ensures Valid(r.0)
    ensures r.0 == d.(rx := d.rx.(inbox := []))
    ensures r.1 == d.rx.inbox
  {
    (d.(rx := d.rx.(inbox := [])), d.rx.inbox)
  }

  /** Reading the data attribute twice in a row: the second read is empty. */
  lemma CollectTwice(d: Driver)
    requires Valid(d)
    ensures GetData(GetData(d).0).1 == []
    ensures GetData(GetData(d).0).0 == GetData(d).0
  {
  }

  /**
    Loopback round trip: text written in loopback mode to an empty inbox is
    read back unchanged, up to the first zero byte, as long as it fits.
   */
  lemma LoopbackRoundTrip(d: Driver, buf: seq<byte>)
    requires Valid(d) && d.config.loopback && d.rx.inbox == []
    requires |Contents(buf)| <= Capacity
    ensures GetData(Submit(d, buf)).1 == Contents(buf)
  {
    PutAllFits([], Contents(buf));
  }

  /** Without overflow, a loopback write appends the text, in order, to the inbox. */
  lemma LoopbackFits(d: Driver, buf: seq<byte>)
    requires Valid(d) && d.config.loopback
    requires |d.rx.inbox| + |Contents(buf)| <= Capacity
    ensures Submit(d, buf).rx == d.rx.(inbox := d.rx.inbox + Contents(buf))
  {
    PutAllFits(d.rx.inbox, Contents(buf));
  }

  /**
    Loopback overflow: one byte more than fits wipes the inbox, and the read
    that follows returns nothing.
   */
  lemma LoopbackOverflow(d: Driver, buf: seq<byte>)
    requires Valid(d) && d.config.loopback
    requires |d.rx.inbox| + |Contents(buf)| == Capacity + 1
    ensures GetData(Submit(d, buf)).1 == []
  {
    OverflowWipes(d.rx.inbox, Contents(buf));
  }

  /**
    Submit order: text written to an idle transmitter with an empty outbox
    goes out in its original order, one frame per byte, back to back, and the
    outbox is empty afterwards.
   */
  lemma SubmitThenSend(d: Driver, buf: seq<byte>)
    requires Valid(d) && !d.config.loopback
    requires d.tx == Transmit.TxState(StartBit, [])
    requires |Contents(buf)| <= Capacity
    ensures var text := Contents(buf);
      Transmit.Run(Submit(d, buf).tx, FrameLength * |text|) ==
        (Transmit.TxState(StartBit, []), Transmit.Driving(Frames(text)))
  {
    var text := Contents(buf);
    SubmitFits(d, buf);
    assert [] + Reverse(text) == Reverse(text);
    Transmit.SendAll(Submit(d, buf).tx);
    ReverseReverse(text);
  }

  /** Without overflow, a non-loopback write appends the reversed text to the outbox. */
  lemma SubmitFits(d: Driver, buf: seq<byte>)
    requires Valid(d) && !d.config.loopback
    requires |d.tx.outbox| + |Contents(buf)| <= Capacity
    ensures Submit(d, buf).tx == d.tx.(outbox := d.tx.outbox + Reverse(Contents(buf)))
  {
    ReverseNulFree(Contents(buf));
    PutAllFits(d.tx.outbox, Reverse(Contents(buf)));
  }

  /**
    A non-loopback write that overflows the outbox wipes it but leaves the
    frame counter where it was: if a frame was under way, the next byte
    written is sent from that data bit on, without a start bit.
   */
  lemma OutboxOverflowMidFrame(d: Driver, buf: seq<byte>, next: seq<byte>)
    requires Valid(d) && !d.config.loopback && 0 <= d.tx.bit < 8
    requires |d.tx.outbox| + |Contents(buf)| == Capacity + 1
    requires 0 < |Contents(next)| <= Capacity
    ensures Submit(d, buf).tx == Transmit.TxState(d.tx.bit, [])
    ensures var t := Submit(Submit(d, buf), next).tx;
      Transmit.Tick(t).driven == Transmit.Level(BitOf(Contents(next)[0], d.tx.bit))
  {
    var text := Contents(buf);
    ReverseNulFree(text);
    OverflowWipes(d.tx.outbox, Reverse(text));
    var d1 := Submit(d, buf);
    SubmitFits(d1, next);
    var r := Reverse(Contents(next));
    assert Submit(d1, next).tx.outbox == [] + r;
    assert r[|r| - 1] == Contents(next)[0];
  }

  /**
    A non-loopback write that overflows the outbox while the stop tick is
    pending: the next tick drives the stop level and pops the last byte of the
    following write, which is the first byte of its text and is never sent.
   */
  lemma OutboxOverflowAtStop(d: Driver, buf: seq<byte>, next: seq<byte>)
    requires Valid(d) && !d.config.loopback && d.tx.bit == StopBit
    requires |d.tx.outbox| + |Contents(buf)| == Capacity + 1
    requires 0 < |Contents(next)| <= Capacity
    ensures Submit(d, buf).tx == Transmit.TxState(StopBit, [])
    ensures var t := Submit(Submit(d, buf), next).tx;
      Transmit.Tick(t) == Transmit.TxStep(
        Transmit.TxState(StartBit, Reverse(Contents(next)[1..])), Transmit.Level(true))
  {
    var text := Contents(buf);
    ReverseNulFree(text);
    OverflowWipes(d.tx.outbox, Reverse(text));
    var d1 := Submit(d, buf);
    SubmitFits(d1, next);
    var u := Contents(next);
    var r := Reverse(u);
    assert Submit(d1, next).tx.outbox == [] + r;
    assert r[..|r| - 1] == Reverse(u[1..]);
  }

  /**
    Two writes before the transmitter starts: each write's bytes go out in
    their own order, but the second write goes out before the first.
   */
  lemma TwoWritesSendLastFirst(d: Driver, buf1: seq<byte>, buf2: seq<byte>)
    requires Valid(d) && !d.config.loopback
    requires d.tx == Transmit.TxState(StartBit, [])
    requires |Contents(buf1)| + |Contents(buf2)| <= Capacity
    ensures var t1 := Contents(buf1); var t2 := Contents(buf2);
      Transmit.Run(Submit(Submit(d, buf1), buf2).tx, FrameLength * (|t1| + |t2|)) ==
        (Transmit.TxState(StartBit, []), Transmit.Driving(Frames(t2 + t1)))
  {
    var d1 := Submit(d, buf1);
    var s := Submit(d1, buf2).tx;
    TwoWritesQueued(d, buf1, buf2);
    SendReversed(s, Contents(buf2) + Contents(buf1), |Contents(buf1)| + |Contents(buf2)|);
  }

  /** After the two writes the outbox, read from the end, is the second text then the first. */
  lemma TwoWritesQueued(d: Driver, buf1: seq<byte>, buf2: seq<byte>)
    requires Valid(d) && !d.config.loopback
    requires d.tx == Transmit.TxState(StartBit, [])
    requires |Contents(buf1)| + |Contents(buf2)| <= Capacity
    ensures var s := Submit(Submit(d, buf1), buf2).tx;
      s.bit == StartBit && Reverse(s.outbox) == Contents(buf2) + Contents(buf1)
  {
    TwoWritesOutbox(d, buf1, buf2);
    SendOrder(Contents(buf1), Contents(buf2));
  }

  /** An outbox holding `text` reversed sends `text` in order from rest. */
  lemma SendReversed(s: Transmit.TxState, text: seq<byte>, n: nat)
    requires s.bit == StartBit && Reverse(s.outbox) == text && n == |text|
    ensures Transmit.Run(s, FrameLength * n) ==
      (Transmit.TxState(StartBit, []), Transmit.Driving(Frames(text)))
  {
    Transmit.SendAll(s);
  }

  lemma TwoWritesOutbox(d: Driver, buf1: seq<byte>, buf2: seq<byte>)
    requires Valid(d) && !d.config.loopback
    requires d.tx == Transmit.TxState(StartBit, [])
    requires |Contents(buf1)| + |Contents(buf2)| <= Capacity
    ensures Submit(Submit(d, buf1), buf2).tx ==
      Transmit.TxState(StartBit, Reverse(Contents(buf1)) + Reverse(Contents(buf2)))
  {
    SubmitFits(d, buf1);
    assert [] + Reverse(Contents(buf1)) == Reverse(Contents(buf1));
    SubmitFits(Submit(d, buf1), buf2);
  }

  lemma SendOrder(t1: seq<byte>, t2: seq<byte>)
    ensures Reverse(Reverse(t1) + Reverse(t2)) == t2 + t1
  {
    ReverseConcat(Reverse(t1), Reverse(t2));
    ReverseReverse(t1);
    ReverseReverse(t2);
  }

  lemma ReverseConcat(a: seq<byte>, b: seq<byte>)
    ensures Reverse(a + b) == Reverse(b) + Reverse(a)
  {
    var r := Reverse(a + b);
    assert forall i :: 0 <= i < |r| ==> r[i] == (Reverse(b) + Reverse(a))[i];
  }

  // ---------------------------------------------------------------------
  // Over a wire
  // ---------------------------------------------------------------------

  /** The line level each tick leaves behind; an idle line is high. */
  function LineLevels(drives: seq<Transmit.Drive>): (levels: seq<bool>)
    ensures |levels| == |drives|
    ensures forall i :: 0 <= i < |drives| && drives[i].Level? ==> levels[i] == drives[i].high
  {
    seq(|drives|, i requires 0 <= i < |drives| => if drives[i].Level? then drives[i].high else true)
  }

  lemma LineLevelsDriving(f: seq<bool>)
    ensures LineLevels(Transmit.Driving(f)) == f
  {
  }

  /**
    Engine-level round trip: a receiver at rest, sampling the transmitter's
    line once per transmitter tick, stores the outbox in the order it was
    sent, from last byte to first.
   */
  lemma LineRoundTrip(s: Transmit.TxState, r: Receive.RxState)
    requires s.bit == StartBit
    requires r.bit == StartBit && Buffer.Valid(r.inbox)
    ensures var levels := LineLevels(Transmit.Run(s, FrameLength * |s.outbox|).1);
      && Receive.Run(r, levels).inbox == PutAll(r.inbox, Reverse(s.outbox))
      && Receive.Run(r, levels).bit == StartBit
  {
    Transmit.SendAll(s);
    LineLevelsDriving(Frames(Reverse(s.outbox)));
    Receive.ReceiveAll(r, Reverse(s.outbox));
  }

  /**
    Round trip over a wire: text written to an idle, non-loopback sender with
    an empty outbox, sent in full to an idle receiver with an empty inbox,
    is read back unchanged from the receiver.
   */
  lemma SerialRoundTrip(sender: Driver, receiver: Driver, buf: seq<byte>)
    requires Valid(sender) && !sender.config.loopback
    requires sender.tx == Transmit.TxState(StartBit, [])
    requires Valid(receiver) && receiver.rx.bit == StartBit && receiver.rx.inbox == []
    requires |Contents(buf)| <= Capacity
    ensures var text := Contents(buf);
      var drives := Transmit.Run(Submit(sender, buf).tx, FrameLength * |text|).1;
      GetData(receiver.(rx := Receive.Run(receiver.rx, LineLevels(drives)))).1 == text
  {
    var text := Contents(buf);
    SubmitThenSend(sender, buf);
    LineLevelsDriving(Frames(text));
    Receive.ReceiveAll(receiver.rx, text);
    PutAllFits([], text);
  }

  /** The frame of 'A' (0x41): low, then 1,0,0,0,0,0,1,0, then high. */
  lemma FrameOfA()
    ensures Frame(0x41) == [false, true, false, false, false, false, false, true, false, true]
    ensures BitPeriodMicros(9600) == 104
  {
    assert BitOf(0x41, 0) && !BitOf(0x41, 1) && !BitOf(0x41, 2) && !BitOf(0x41, 3);
    assert !BitOf(0x41, 4) && !BitOf(0x41, 5) && BitOf(0x41, 6) && !BitOf(0x41, 7);
    assert DataBits(0x41) == [true, false, false, false, false, false, true, false];
  }

  // ---------------------------------------------------------------------
  // Interleaved operations
  // ---------------------------------------------------------------------

  /** Everything that can happen to the driver, one atomic step at a time. */
  datatype Event =
    | TxTimer
    | RxTimer(gplev: seq<bv32>)
    | WriteTxPin(gpio: int)
    | WriteRxPin(gpio: int)
    | WriteLoopback(value: int)
    | WriteBaudrate(value: int)
    | WriteData(buf: seq<byte>)
    | ReadData

  predicate WellFormed(e: Event) {
    e.RxTimer? ==> |e.gplev| == Gpio.BankWords
  }

  function Step(d: Driver, e: Event): (r: Driver)
    requires Valid(d) && WellFormed(e)
    ensures Valid(r)
  {
    match e
    case TxTimer => TxTick(d).next
    case RxTimer(gplev) => RxTick(d, gplev)
    case WriteTxPin(gpio) => SetTxPin(d, gpio).0
    case WriteRxPin(gpio) => SetRxPin(d, gpio).0
    case WriteLoopback(value) => SetLoopback(d, value).0
    case WriteBaudrate(value) => SetBaudrate(d, value).0
    case WriteData(buf) => Submit(d, buf)
    case ReadData => GetData(d).0
  }

  function Steps(d: Driver, events: seq<Event>): Driver
    requires Valid(d) && forall i :: 0 <= i < |events| ==> WellFormed(events[i])
    decreases |events|
  {
    if |events| == 0 then d else Steps(Step(d, events[0]), events[1..])
  }

  /**
    Whatever interleaving of ticks and attribute accesses follows module
    init, both frame counters stay in [-1, 8], both buffers hold at most 256
    non-zero bytes and both pins stay in range.
   */
  lemma {:induction false} StepsKeepValid(d: Driver, events: seq<Event>)
    requires Valid(d) && forall i :: 0 <= i < |events| ==> WellFormed(events[i])
    ensures Valid(Steps(d, events))
    ensures -1 <= Steps(d, events).tx.bit <= 8 && -1 <= Steps(d, events).rx.bit <= 8
    ensures |Steps(d, events).tx.outbox| <= Capacity && |Steps(d, events).rx.inbox| <= Capacity
    decreases |events|
  {
    if |events| > 0 {
      StepsKeepValid(Step(d, events[0]), events[1..]);
    }
  }
}

=== FILE: transmit.dfy ===
/**
  The transmit engine (FunctionTimerTX): on every timer tick it drives the TX
  line with the next bit of the LAST byte of the outbox, and removes that byte
  on its stop tick. The byte is re-read on every tick, not latched at the start
  bit.
 */
module Transmit {
  import opened Buffer
  import opened Framing

  /** What one tick does to the TX line. */
  datatype Drive = Quiet | Level(high: bool)

  /**
    `bit` is the tick function's static counter: -1 when the next tick sends a
    start bit, 0..7 the index of the next data bit, 8 when the next tick sends
    the stop bit.
   */
  datatype TxState = TxState(bit: int, outbox: seq<byte>)

  predicate Valid(s: TxState) {
    StartBit <= s.bit <= StopBit && Buffer.Valid(s.outbox)
  }

  datatype TxStep = TxStep(next: TxState, driven: Drive)

  function Last(s: seq<byte>): byte
    requires |s| > 0
  {
    s[|s| - 1]
  }

  /** One tick of FunctionTimerTX. */
  function Tick(s: TxState): (r: TxStep)
    ensures Valid(s) ==> Valid(r.next)
    // nothing to send: no write, and the counter stays where it is
    ensures |s.outbox| == 0 ==> r == TxStep(s, Quiet)
    // something to send: a level is driven on every tick
    ensures Valid(s) && |s.outbox| > 0 ==> r.driven.Level?
    // the start tick drives the line low and leaves the outbox alone
    ensures s.bit == StartBit && |s.outbox| > 0 ==> r == TxStep(s.(bit := 0), Level(false))
    // the outbox changes only on a stop tick, which removes exactly its last byte
    ensures r.next.outbox != s.outbox ==>
      s.bit == StopBit && |s.outbox| > 0 && r.next.outbox == s.outbox[..|s.outbox| - 1]
    ensures s.bit == StopBit && |s.outbox| > 0 ==>
      r.next == TxState(StartBit, s.outbox[..|s.outbox| - 1]) && r.driven == Level(true)
    // the data bit driven is that of the byte last in the outbox on this very tick
    ensures 0 <= s.bit < 8 && |s.outbox| > 0 ==>
      r.driven == Level(BitOf(Last(s.outbox), s.bit)) && r.next.bit == s.bit + 1
  {
    if |s.outbox| > 0 then
      if s.bit == StartBit then
        TxStep(s.(bit := 0), Level(false))
      else if 0 <= s.bit <= 7 then
        TxStep(s.(bit := s.bit + 1), Level(BitOf(Last(s.outbox), s.bit)))
      else if s.bit == StopBit then
        TxStep(TxState(StartBit, s.outbox[..|s.outbox| - 1]), Level(true))
      else
        TxStep(s, Quiet)
    else
      TxStep(s, Quiet)
  }

  /** `n` ticks in a row: the final state and what each tick drove. */
  function Run(s: TxState, n: nat): (r: (TxState, seq<Drive>))
    ensures |r.1| == n
    ensures Valid(s) ==> Valid(r.0)
  {
    if n == 0 then (s, [])
    else
      var (t, drives) := Run(s, n - 1);
      var step := Tick(t);
      (step.next, drives + [step.driven])
  }

  /** The drives that put the levels `f` on the line, one per tick. */
  function Driving(f: seq<bool>): (d: seq<Drive>)
    ensures |d| == |f|
    ensures forall i :: 0 <= i < |f| ==> d[i] == Level(f[i])
  {
    seq(|f|, i requires 0 <= i < |f| => Level(f[i]))
  }

  lemma DrivingConcat(a: seq<bool>, b: seq<bool>)
    ensures Driving(a + b) == Driving(a) + Driving(b)
  {
  }

  /** Running `m + n` ticks is running `m`, then `n` more. */
  lemma {:induction false} RunAdd(s: TxState, m: nat, n: nat)
    ensures Run(s, m + n) == (Run(Run(s, m).0, n).0, Run(s, m).1 + Run(Run(s, m).0, n).1)
    decreases n
  {
    if n > 0 {
      RunAdd(s, m, n - 1);
      var t := Run(s, m).0;
      var b := Run(t, n - 1);
      RunStep(s, m + n - 1);
      RunStep(t, n - 1);
      var step := Tick(b.0);
      assert Run(s, m).1 + b.1 + [step.driven] == Run(s, m).1 + (b.1 + [step.driven]);
    } else {
      assert Run(s, m).1 + [] == Run(s, m).1;
    }
  }

  /** One more tick after `n`. */
  lemma RunStep(s: TxState, n: nat)
    ensures Run(s, n + 1) == (Tick(Run(s, n).0).next, Run(s, n).1 + [Tick(Run(s, n).0).driven])
  {
  }

  /**
    The first `k` ticks of a frame: the counter has advanced to `k - 1`, the
    outbox is untouched and the line has carried the first `k` levels of the
    frame of the last byte.
   */
  lemma {:induction false} FramePrefix(s: TxState, k: nat)
    requires s.bit == StartBit && |s.outbox| > 0
    requires k < FrameLength
    ensures Run(s, k) == (TxState(k - 1, s.outbox), Driving(Frame(Last(s.outbox))[..k]))
  {
    if k > 0 {
      FramePrefix(s, k - 1);
      var f := Frame(Last(s.outbox));
      var t := TxState(k - 2, s.outbox);
      assert f[..k] == f[..k - 1] + [f[k - 1]];
      DrivingConcat(f[..k - 1], [f[k - 1]]);
      assert Driving([f[k - 1]]) == [Level(f[k - 1])];
      if k > 1 {
        assert f[k - 1] == f[1..9][k - 2] == DataBits(Last(s.outbox))[k - 2];
        assert Tick(t).driven == Level(f[k - 1]);
      }
      assert Tick(t) == TxStep(TxState(k - 1, s.outbox), Level(f[k - 1]));
    } else {
      assert Driving(Frame(Last(s.outbox))[..0]) == [];
    }
  }

  /**
    Ten ticks from rest with a non-empty outbox send the frame of its last byte
    (start bit 0, the data bits least significant first, stop bit 1) and remove
    exactly that byte; the nine ticks before the stop tick leave the outbox as
    it was.
   */
  lemma SendFrame(s: TxState)
    requires s.bit == StartBit && |s.outbox| > 0
    ensures Run(s, FrameLength) ==
      (TxState(StartBit, s.outbox[..|s.outbox| - 1]), Driving(Frame(Last(s.outbox))))
    ensures forall k :: 0 <= k < FrameLength ==> Run(s, k).0.outbox == s.outbox
  {
    FramePrefix(s, FrameLength - 1);
    var f := Frame(Last(s.outbox));
    assert f == f[..FrameLength - 1] + [f[FrameLength - 1]];
    DrivingConcat(f[..FrameLength - 1], [f[FrameLength - 1]]);
    assert Driving([f[FrameLength - 1]]) == [Level(true)];
    forall k | 0 <= k < FrameLength
      ensures Run(s, k).0.outbox == s.outbox
    {
      FramePrefix(s, k);
    }
  }

  /**
    From rest, the engine drains the whole outbox in `10 * |outbox|` ticks,
    sending the bytes from last to first, one frame each, back to back.
   */
  lemma {:induction false} SendAll(s: TxState)
    requires s.bit == StartBit
    ensures Run(s, FrameLength * |s.outbox|) ==
      (TxState(StartBit, []), Driving(Frames(Reverse(s.outbox))))
    decreases |s.outbox|
  {
    if |s.outbox| > 0 {
      var rest := s.outbox[..|s.outbox| - 1];
      var t := TxState(StartBit, rest);
      SendFrame(s);
      SendAll(t);
      RunAdd(s, FrameLength, FrameLength * |rest|);
      assert FrameLength * |s.outbox| == FrameLength + FrameLength * |rest|;
      var r := Reverse(s.outbox);
      assert r == [Last(s.outbox)] + Reverse(rest);
      assert r[1..] == Reverse(rest);
      DrivingConcat(Frame(Last(s.outbox)), Frames(Reverse(rest)));
    }
  }

  /** With an empty outbox the engine stays silent and at rest, however long it runs. */
  lemma {:induction false} Silent(s: TxState, n: nat)
    requires |s.outbox| == 0
    ensures Run(s, n) == (s, seq(n, _ => Quiet))
  {
    if n > 0 {
      Silent(s, n - 1);
      assert Tick(s) == TxStep(s, Quiet);
      assert Run(s, n) == (s, seq(n - 1, _ => Quiet) + [Quiet]);
      assert seq(n, _ => Quiet) == seq(n - 1, _ => Quiet) + [Quiet];
    } else {
      assert seq(0, _ => Quiet) == [];
    }
  }

  /**
    A byte the driver stores while a frame is under way becomes the last byte
    of the outbox, next in send order, and takes over the rest of that frame:
    the next data bit comes from the new byte.
   */
  lemma StoreDuringFrame(s: TxState, c: byte)
    requires Valid(s) && 0 <= s.bit < 8 && 0 < |s.outbox| < Capacity
    requires c != 0 && BitOf(c, s.bit) != BitOf(Last(s.outbox), s.bit)
    ensures Tick(s.(outbox := Put(s.outbox, c))).driven == Level(BitOf(c, s.bit))
    ensures Tick(s.(outbox := Put(s.outbox, c))).driven != Tick(s).driven
  {
  }

  /**
    From any point of a frame, the ticks up to and including the stop tick
    pop the byte that is last at that moment and return to rest.
   */
  lemma {:induction false} FinishFrame(s: TxState)
    requires 0 <= s.bit <= StopBit && |s.outbox| > 0
    ensures Run(s, (StopBit + 1 - s.bit) as nat).0 == TxState(StartBit, s.outbox[..|s.outbox| - 1])
    decreases StopBit - s.bit
  {
    var n := (StopBit + 1 - s.bit) as nat;
    RunAdd(s, 1, n - 1);
    assert Run(s, 1).0 == Tick(s).next;
    if s.bit < StopBit {
      FinishFrame(s.(bit := s.bit + 1));
    } else {
      assert Run(Tick(s).next, 0).0 == Tick(s).next;
    }
  }

  /**
    A byte the driver stores mid-frame is popped by that frame's stop tick:
    the outbox is back to what it was before the store, and the byte that was
    in flight goes out next, in full, from rest. Stored after at least one
    data bit (`bit` in 1..8), the new byte never goes out in a frame of its
    own; stored after the start tick (`bit == 0`), it has supplied all eight
    data bits, so its whole frame was on the line (`StoreAfterStart`).
   */
  lemma StoredByteDropped(s: TxState, c: byte)
    requires Valid(s) && 0 <= s.bit <= StopBit && |s.outbox| < Capacity && c != 0
    ensures Run(s.(outbox := Put(s.outbox, c)), (StopBit + 1 - s.bit) as nat).0 == TxState(StartBit, s.outbox)
  {
    var t := s.(outbox := Put(s.outbox, c));
    FinishFrame(t);
    assert t.outbox[..|t.outbox| - 1] == s.outbox;
  }

  /**
    A byte stored right after the start tick takes over the whole frame: the
    line carries the new byte's frame, and the byte that was in flight is
    still queued, none of its data bits sent.
   */
  lemma StoreAfterStart(s: TxState, c: byte)
    requires Valid(s) && s.bit == 0 && |s.outbox| < Capacity && c != 0
    ensures Run(s.(outbox := Put(s.outbox, c)), FrameLength - 1) ==
      (TxState(StartBit, s.outbox), Driving(Frame(c))[1..])
  {
    var o := Put(s.outbox, c);
    var u := TxState(StartBit, o);
    assert o == s.outbox + [c];
    assert Run(u, 0) == (u, []);
    assert Tick(u) == TxStep(TxState(0, o), Level(false));
    RunStep(u, 0);
    SendFrame(u);
    RunAdd(u, 1, FrameLength - 1);
    assert o[..|o| - 1] == s.outbox;
  }
}
